=== FILE: README.md ===
# Appointment reminders: the booking handler

A Dafny model of the `POST /book` handler of the MessageBird appointment
reminders demo (`AppointmentReminders.java`). A client submits a name, a
treatment, a phone number, a date and a time. The handler:

1. checks that no field is blank;
2. checks that the appointment is at least 3 hours 5 minutes ahead;
3. parses the phone number;
4. asks the provider whether the number is a mobile line;
5. sends an SMS from "BeautyBird";
6. appends the appointment, with a reminder time 3 hours before it, to an
   in-memory list, and renders a confirmation page.

Every step but the last can end the request early. It can re-render the
booking form with an error, or an exception can escape the handler.

`Booking.Book` models the handler as one pure function. Its inputs are:

- the five parameters (`None` for a missing one);
- the clock reading `now`;
- `LocalDateTime.parse`, as a partial function;
- the configured country code and the provider's answers to the lookup
  and to the send;
- the current list.

It returns three things:

- the response: a rendered view (template plus model map) or a `Crash`
  naming the escaping exception;
- the new list;
- the provider calls issued, in order.

Timestamps are nanoseconds from 1970-01-01T00:00, which is
`LocalDateTime`'s resolution. So the 3h5m window, the 3h reminder offset
and `isBefore` are exact integer arithmetic.

The mobile check is a parameter of `Book`. `ByReference` is the code as
written: `!=` on strings compares references. `ByValue` is the evidently
intended `equals`. Every lemma in `BookingProperties` holds for both. See
"Findings".

The `GET /` handler is modelled too (`HomeForm`), for its suggested
appointment time. So are the pieces of the Java platform the handler
depends on (`JavaLang`):

- `String.isBlank` with the exact `Character.isWhitespace` set;
- `new BigInteger(String)` and its inverse `toString`;
- string identity versus equality.

The `HH:mm` and `HH:mm:ss` formatting is in `Clock`.

The comment at line 79 ("Check if date/time is correct …") suggests that
a bad date or time is meant to be reported on the form, but the code has
no such branch. `LocalDateTime.parse` at line 81 runs before the `try`
that opens at line 88, so its `DateTimeParseException` escapes the
handler. `new BigInteger` at line 90 is inside the `try`, but the `catch`
at line 120 lists only the three MessageBird exceptions, so its
`NumberFormatException` escapes too. The model follows
the code: `Crash(DateTimeParse)` and `Crash(NumberFormat)`. A missing
parameter is `null`, and `isBlank` on it throws. This is
`Crash(NullPointer)`, but only when the short-circuiting `||` chain
reaches that parameter.

## Model

| member | source | states |
|---|---|---|
| Booking.Book | src/main/java/AppointmentReminders.java:57-126 | The list only grows, by at most one entry at the end. An entry is added exactly when both the lookup and the send were issued and `sendMessage` returned without a provider exception, and exactly when the confirmation template is rendered. The added entry is well timed, not too soon, and is the model of the confirmation page. Calls are at most a lookup then a send from "BeautyBird" to the looked-up number alone. A crash calls nothing and stores nothing. Every re-rendered form echoes the five parameters and carries an error. |
| Booking.CheckFields | src/main/java/AppointmentReminders.java:74 | The `\|\|` chain of `isBlank` calls stops at the first parameter that is blank or missing. The result is "all present" iff every parameter is filled. It is "blank" iff some blank parameter has only filled ones before it. It is "null" iff some missing parameter has only filled ones before it. |
| BookingProperties.BlankFieldRejected | src/main/java/AppointmentReminders.java:66-77 | A blank parameter reached by the chain gives the home form with "Please fill all required fields!" and all five inputs echoed. It issues no call and leaves the list unchanged. |
| BookingProperties.MissingFieldCrashes | src/main/java/AppointmentReminders.java:60-74 | A missing parameter reached by the chain makes `isBlank` throw. Nothing is called and nothing is stored. |
| BookingProperties.UnparseableDateTimeCrashes | src/main/java/AppointmentReminders.java:81 | A date/time `LocalDateTime.parse` rejects escapes as an exception. There are no calls and no store change. |
| BookingProperties.TooSoonRejected | src/main/java/AppointmentReminders.java:80-86 | An appointment strictly before `now + 3h5m` gives the home form with the "at least 3 hours" error. No call is made and the list is unchanged. |
| BookingProperties.EarliestInstantAccepted | src/main/java/AppointmentReminders.java:80-83 | An appointment exactly at `now + 3h5m` passes the timing check. The handler then looks the number up, or crashes on the number parse. |
| BookingProperties.UnparseableNumberCrashes | src/main/java/AppointmentReminders.java:88-93 | The number is parsed before the lookup. A number `new BigInteger` rejects ends the request as an exception, with no lookup, no send and no store change. |
| BookingProperties.LookupIssuedIff | src/main/java/AppointmentReminders.java:88-93 | The lookup is issued iff all fields are filled, the date/time parses, it is not too soon and the number parses. It asks about the parsed number with the configured country code. |
| BookingProperties.LookupFailureReported | src/main/java/AppointmentReminders.java:120-123 | A provider failure from the lookup gives the home form with `errors` set to the failure's text. Only the lookup was called and the list is unchanged. |
| BookingProperties.NotMobileRejected | src/main/java/AppointmentReminders.java:95-98 | A line type failing the mobile check gives the home form with the not-a-mobile error. No message is sent and the list is unchanged. |
| BookingProperties.SendIssuedIff | src/main/java/AppointmentReminders.java:95-107 | The send is issued iff the lookup was reached and answered with a line type passing the mobile check. The message comes from "BeautyBird", goes to exactly one recipient (the parsed number), and has the reminder text as its body. |
| BookingProperties.SendFailureReported | src/main/java/AppointmentReminders.java:107-123 | A provider failure from the send gives the home form with the failure's text. Nothing is stored. |
| BookingProperties.SuccessRecorded | src/main/java/AppointmentReminders.java:101-119 | A send that returns without a provider exception appends exactly one record after all prior entries. The record holds the submitted name, treatment and number, the parsed time, and a reminder exactly 3h earlier, which is at least 5 minutes after `now`. The confirmation view is rendered from that same record. |
| BookingProperties.DecisionIgnoresStore | src/main/java/AppointmentReminders.java:109-116 | The response, the calls and the growth of the list do not depend on what the list already holds. |
| BookingProperties.ReminderBodyLayout | src/main/java/AppointmentReminders.java:103 | The SMS text is, in order: the name; ", here's a reminder that you have a "; the treatment; " scheduled for "; two digits giving the appointment's hour, a colon, and two digits giving its minute; ". See you soon!". Each part sits at a position fixed by the lengths of the name and the treatment, so each can be read back. |
| AppointmentStore.HandleStep | src/main/java/AppointmentReminders.java:107-116 | One request keeps every entry of the list in place and adds one entry, with its reminder 3h before the appointment, exactly when the provider accepted its message, whatever the list held. |
| AppointmentStore.ReplayGrowsByAccepted | src/main/java/AppointmentReminders.java:107-116 | Over any run of requests, the list grows by exactly the number of requests whose message the provider accepted. |
| AppointmentStore.ReplayKeepsPrefix | src/main/java/AppointmentReminders.java:116 | Over any run of requests, the list keeps every earlier entry in place. |
| AppointmentStore.ReplayAddsWellTimed | src/main/java/AppointmentReminders.java:100-116 | Over any run of requests, every added entry has its reminder 3h before the appointment. |
| JavaLang.IndexOfNonWhitespace | src/main/java/AppointmentReminders.java:74 | The scan behind `isBlank` returns the first non-whitespace position, or the length. It returns the length iff the string is blank. |
| JavaLang.ParseBigInteger | src/main/java/AppointmentReminders.java:90 | `new BigInteger(s)` succeeds iff `s` is one optional leading sign followed by at least one digit. A leading '-' gives a non-positive value; otherwise the value is non-negative. |
| JavaLang.ParsePaddedSpelling | src/main/java/AppointmentReminders.java:90 | Leading zeros and a leading '+' do not change the value: for every `k` and `n`, `k` zeros followed by the shortest spelling of `n` parse to `n`, the same with a '+' in front parse to `n`, and with a '-' in front to `-n`. For example "0612345678" is looked up as 612345678. |
| JavaLang.EveryLiteralIsPadded | src/main/java/AppointmentReminders.java:90 | Every string `new BigInteger` accepts is, for some `k` and `n`, `k` zeros followed by the shortest spelling of `n`, with no sign, a '+' or a '-' in front. Together with `ParsePaddedSpelling` this fixes the number the lookup receives for every accepted input. |
| JavaLang.ParseOfToString | src/main/java/AppointmentReminders.java:90 | Every integer parses back from its `toString` spelling. |
| Clock.FormatHourMinute | src/main/java/AppointmentReminders.java:103 | `HH:mm` is five characters with ':' in the middle. The two digit pairs read back as the hour of day and the minute of hour. |
| Clock.FormatHourMinuteSecond | src/main/java/AppointmentReminders.java:49-50 | `HH:mm:ss` is eight characters. Its three digit pairs read back as hour, minute and second. |
| Clock.DateAndClockRecoverInstant | src/main/java/AppointmentReminders.java:47-50 | The date and the `HH:mm:ss` time of day together give back the instant, truncated to the second. |
| HomeForm.ShowForm | src/main/java/AppointmentReminders.java:40-52 | The `GET /` form is the home template showing a date and a `HH:mm:ss` time of day. |
| HomeForm.SuggestionPassesTimingCheck | src/main/java/AppointmentReminders.java:40-50 | The suggested `now + 3h10m`, read back from the form, equals the suggestion truncated to the second. Submitted at any time up to 5 minutes less one second after `now`, it passes the `3h5m` timing check. |
| MobileCheckFinding.ReferenceCheckRejectsReportedMobile | src/main/java/AppointmentReminders.java:95 | As written, a number the provider reports as "mobile" (a non-interned string) still gets the not-a-mobile error. No message is sent and nothing is stored. |
| MobileCheckFinding.ReferenceCheckNeedsInternedString | src/main/java/AppointmentReminders.java:95 | As written, the message is sent iff the line type is "mobile" and the string is the interned literal. |
| MobileCheckFinding.ValueCheckMessagesMobileLines | src/main/java/AppointmentReminders.java:95 | Comparing by value, the message is sent iff the line type is "mobile". With a provider that accepts the send, the appointment is then stored. |

## Left out

- The `POST /step3` verification handler: it passes an id and token to the provider's verify call and picks one of two views. It has no logic of its own.
- Spark routing, `queryParams` and Mustache rendering: a view is a template tag plus a model map.
- Dotenv configuration: the country code is an opaque input string.
- The MessageBird client (`viewLookup`, `sendMessage`): its answers are inputs. Exceptions it might throw other than the three caught ones are not modelled.
- `LocalDateTime.now()`: `now` is a parameter.
- The internals of `LocalDateTime.parse`: it is a parameter, a partial function from the joined `date + "T" + time` text to an instant.
- `LocalDateTime`'s year range: the `DateTimeException` that `plusHours` / `minusHours` throw past year ±999999999 is not modelled.
- The printed form of the `LocalDate` the `GET /` form shows: it is kept as a day number.
- JavaLang.ParseBigInteger: accepts only ASCII digits. `Character.digit` also accepts other Unicode decimal digits, which the model treats as a `NumberFormatException`.
- The appointment list is a sequence value. Concurrent access to the `ArrayList` is not modelled.
- The reminder time is only stored. The source never schedules a reminder, and the SMS is sent at booking time.

## Findings

| source | as written | input that shows it | evidently intended | confidence | as-written member | corrected member |
|---|---|---|---|---|---|---|
| src/main/java/AppointmentReminders.java:95 | `lookup.getType() != "mobile"` compares string references. | Any valid request for a mobile number. The lookup reports type "mobile" as a string built from the provider's response, not the interned literal, so the form comes back with the not-a-mobile error and no SMS or booking ever happens. | Compare by value, `!"mobile".equals(lookup.getType())`. | medium; not executed | MobileCheckFinding.ReferenceCheckRejectsReportedMobile | MobileCheckFinding.ValueCheckMessagesMobileLines |

=== FILE: appointment_store.dfy ===
/** The appointment list across a run of `POST /book` requests. The
    handlers only ever append to it, so after any run it holds what it
    held before followed by one entry per request whose confirmation
    message the provider accepted, each with its reminder 3 hours before
    the appointment. */
module AppointmentStore {
  import opened JavaLang
  import opened Booking
  import BookingProperties

  /** One `POST /book` request together with the clock reading, the
      date-time parser and the provider's answers it meets. */
  datatype Submission = Submission(
    req: Request,
    now: int,
    parseDateTime: string -> Option<int>,
    provider: Provider)

  function Handle(check: MobileCheck, sub: Submission, store: seq<Appointment>): Booked {
    Book(check, sub.req, sub.now, sub.parseDateTime, sub.provider, store)
  }

  /** The request's confirmation message was sent and accepted. Whether
      this happens does not depend on the list (see
      `BookingProperties.DecisionIgnoresStore`), so it is asked of the
      empty one. */
  predicate MessageAccepted(check: MobileCheck, sub: Submission) {
    |Handle(check, sub, []).calls| == 2 && sub.provider.send == Accepted
  }

  /** The number of requests in `subs` whose message the provider accepted. */
  function AcceptedCount(check: MobileCheck, subs: seq<Submission>): nat
    decreases |subs|
  {
    if |subs| == 0 then 0
    else (if MessageAccepted(check, subs[0]) then 1 else 0) + AcceptedCount(check, subs[1..])
  }

  /** The list after handling `subs` in order, starting from `store`. */
  function Replay(check: MobileCheck, store: seq<Appointment>, subs: seq<Submission>): seq<Appointment>
    decreases |subs|
  {
    if |subs| == 0 then store
    else Replay(check, Handle(check, subs[0], store).store, subs[1..])
  }

  /** Every entry from position `from` on has its reminder 3 hours
      before the appointment. */
  predicate WellTimedFrom(s: seq<Appointment>, from: nat) {
    forall i :: from <= i < |s| ==> WellTimed(s[i])
  }

  /** One request: the list keeps its entries and gains one well-timed
      entry exactly when the provider accepted the message. */
  lemma HandleStep(check: MobileCheck, sub: Submission, store: seq<Appointment>)
    ensures var next := Handle(check, sub, store).store;
      && |next| == |store| + (if MessageAccepted(check, sub) then 1 else 0)
      && next[..|store|] == store
      && WellTimedFrom(next, |store|)
  {
    BookingProperties.DecisionIgnoresStore(
      check, sub.req, sub.now, sub.parseDateTime, sub.provider, store, []);
  }

  /** Over any run, the list grows by exactly one entry per request whose
      message the provider accepted, and by nothing else. */
  lemma {:induction false} ReplayGrowsByAccepted(
    check: MobileCheck, store: seq<Appointment>, subs: seq<Submission>)
    ensures |Replay(check, store, subs)| == |store| + AcceptedCount(check, subs)
    decreases |subs|
  {
    if |subs| > 0 {
      HandleStep(check, subs[0], store);
      ReplayGrowsByAccepted(check, Handle(check, subs[0], store).store, subs[1..]);
    }
  }

  /** Over any run, every entry the list held before stays in place. */
  lemma {:induction false} ReplayKeepsPrefix(
    check: MobileCheck, store: seq<Appointment>, subs: seq<Submission>)
    ensures |store| <= |Replay(check, store, subs)|
    ensures Replay(check, store, subs)[..|store|] == store
    decreases |subs|
  {
    if |subs| > 0 {
      var next := Handle(check, subs[0], store).store;
      HandleStep(check, subs[0], store);
      ReplayKeepsPrefix(check, next, subs[1..]);
      assert Replay(check, store, subs)[..|store|] == Replay(check, next, subs[1..])[..|next|][..|store|];
    }
  }

  /** Over any run, every added entry has its reminder 3 hours before
      the appointment. */
  lemma {:induction false} ReplayAddsWellTimed(
    check: MobileCheck, store: seq<Appointment>, subs: seq<Submission>)
    ensures WellTimedFrom(Replay(check, store, subs), |store|)
    decreases |subs|
  {
    if |subs| > 0 {
      var next := Handle(check, subs[0], store).store;
      HandleStep(check, subs[0], store);
      ReplayKeepsPrefix(check, next, subs[1..]);
      ReplayAddsWellTimed(check, next, subs[1..]);
      var final := Replay(check, next, subs[1..]);
      forall i | |store| <= i < |final|
        ensures WellTimed(final[i])
      {
        if i < |next| {
          assert final[i] == final[..|next|][i];
        }
      }
    }
  }
}

=== FILE: booking.dfy ===
/** The `POST /book` handler of `AppointmentReminders` as one pure
    function. Everything the handler reaches outside itself is an input:
    the clock reading `now`, the date-time parser, the configured country
    code, and what the messaging provider answers to the lookup and to
    the send. The in-memory appointment list is passed in and the list
    after the request is returned, together with the view the handler
    renders (or the exception that escapes it) and the provider calls it
    issued, in order.

    The request runs through the stages received, validated, looked-up,
    dispatched and committed; every stage but the last can end it early. */
module Booking {
  import opened JavaLang
  import Clock

  /** The five form parameters; `None` is a parameter missing from the
      request, which `queryParams` reports as `null`. */
  datatype Request = Request(
    name: Option<string>,
    treatment: Option<string>,
    number: Option<string>,
    date: Option<string>,
    time: Option<string>)

  /** A booked appointment, as kept in the appointment list. */
  datatype Appointment = Appointment(
    name: string,
    treatment: string,
    number: string,
    appointmentDt: int,
    reminderDt: int)

  /** A value placed in a template model. */
  datatype Value = Str(s: string) | Null | DateTime(t: int) | Date(epochDay: int)

  datatype Template = HomeTemplate | ConfirmTemplate

  /** A `ModelAndView`: the model handed to a Mustache template. */
  datatype View = View(model: map<string, Value>, template: Template)

  /** The exceptions the handler does not catch. */
  datatype Fault =
    | NullPointer      // `isBlank` called on a missing parameter
    | DateTimeParse    // `LocalDateTime.parse` rejected the date and time
    | NumberFormat     // `new BigInteger` rejected the number

  /** What the request produces: a rendered view, or an exception that
      escapes the handler. */
  datatype Response = Render(view: View) | Crash(fault: Fault)

  /** The three provider exceptions the handler catches. */
  datatype FailureKind = Unauthorized | General | NotFound

  /** A caught provider exception and its `toString()`. */
  datatype ProviderFailure = ProviderFailure(kind: FailureKind, text: string)

  /** What `viewLookup` answers: the reported line type, or a failure. */
  datatype LookupReply = LineType(lineType: JavaString) | LookupFailed(failure: ProviderFailure)

  /** What `sendMessage` answers: it returns (the handler never reads the
      response, so this says only that the provider accepted the request,
      not that the SMS arrived), or it throws a caught exception. */
  datatype SendReply = Accepted | SendFailed(failure: ProviderFailure)

  /** The provider's configuration and its answers to this request. */
  datatype Provider = Provider(countryCode: string, lookup: LookupReply, send: SendReply)

  /** A call issued to the provider. */
  datatype Call =
    | LookupCall(phoneNumber: int, countryCode: string)
    | SendCall(originator: string, body: string, recipients: seq<int>)

  /** How the lookup's line type is compared with `"mobile"`: by
      reference (`!=` on strings, as the handler is written) or by value
      (`equals`). */
  datatype MobileCheck = ByReference | ByValue

  /** The handler's result: what it answers, the appointment list after
      the request, and the provider calls it issued, in order. */
  datatype Booked = Booked(response: Response, store: seq<Appointment>, calls: seq<Call>)

  const MissingFieldsError := "Please fill all required fields!"
  const TooSoonError := "You can only book appointments that are at least 3 hours in the future!"
  const NotMobileError := "You have entered a valid phone number, but it's not a mobile number! Provide a mobile number so we can contact you via SMS."
  const Originator := "BeautyBird"
  const MobileLineType := "mobile"

  /** Hours between the reminder and the appointment. */
  const ReminderLeadHours := 3

  /** The earliest appointment the handler accepts at `now`: 3 hours and
      5 minutes ahead. */
  function EarliestPossible(now: int): int {
    Clock.Shift(now, 3, 5)
  }

  /** `appointmentDt.isBefore(earliestPossibleDt)`. */
  predicate TooSoon(appointmentDt: int, now: int) {
    appointmentDt < EarliestPossible(now)
  }

  /** The time the reminder is due, 3 hours before the appointment. */
  function ReminderTime(appointmentDt: int): int {
    Clock.Shift(appointmentDt, -ReminderLeadHours, 0)
  }

  /** An appointment whose reminder sits exactly 3 hours before it. */
  predicate WellTimed(a: Appointment) {
    a.appointmentDt - a.reminderDt == 3 * Clock.NanosPerHour
  }

  /** The form parameters in the order the blank-field check tests them. */
  function Fields(req: Request): seq<Option<string>> {
    [req.name, req.treatment, req.number, req.date, req.time]
  }

  /** A parameter that is present and not blank. */
  predicate Filled(f: Option<string>) {
    f.Some? && !IsBlank(f.value)
  }

  /** Every parameter tested before position `i` is filled, so the
      short-circuiting `||` chain reaches position `i`. */
  predicate FilledBefore(fs: seq<Option<string>>, i: int)
    requires 0 <= i <= |fs|
  {
    forall j :: 0 <= j < i ==> Filled(fs[j])
  }

  /** All five parameters are present and not blank. */
  predicate AllFilled(req: Request) {
    && Filled(req.name)
    && Filled(req.treatment)
    && Filled(req.number)
    && Filled(req.date)
    && Filled(req.time)
  }

  lemma AllFilledIsFilledBefore(req: Request)
    ensures AllFilled(req) <==> FilledBefore(Fields(req), 5)
  {
    var fs := Fields(req);
    if AllFilled(req) {
      forall j | 0 <= j < 5 ensures Filled(fs[j]) {
      }
    }
    if FilledBefore(fs, 5) {
      assert Filled(fs[0]) && Filled(fs[1]) && Filled(fs[2]) && Filled(fs[3]) && Filled(fs[4]);
    }
  }

  /** Where the blank-field chain stops: at a blank parameter, at a
      missing one (the call on `null` throws), or not at all. */
  datatype FieldCheck = AllPresent | BlankField | NullField

  /** The chain `name.isBlank() || treatment.isBlank() || ...`, evaluated
      left to right and stopping at the first parameter that is blank or
      missing. */
  function CheckFields(fs: seq<Option<string>>): (r: FieldCheck)
    ensures r == AllPresent <==> FilledBefore(fs, |fs|)
    ensures r == BlankField <==>
      exists i :: 0 <= i < |fs| && fs[i].Some? && IsBlank(fs[i].value) && FilledBefore(fs, i)
    ensures r == NullField <==>
      exists i :: 0 <= i < |fs| && fs[i].None? && FilledBefore(fs, i)
    decreases |fs|
  {
    if |fs| == 0 then AllPresent
    else if fs[0].None? then NullField
    else if IsBlank(fs[0].value) then BlankField
    else CheckFields(fs[1..])
  }

  /** How `Option<string>` parameters enter a template model. */
  function AsValue(f: Option<string>): Value {
    match f
    case Some(s) => Str(s)
    case None => Null
  }

  /** The form parameters echoed into the home template's model. */
  function Echo(req: Request): map<string, Value> {
    map[
      "name" := AsValue(req.name),
      "treatment" := AsValue(req.treatment),
      "number" := AsValue(req.number),
      "date" := AsValue(req.date),
      "time" := AsValue(req.time)]
  }

  /** The booking form again, with the submitted values and an error. */
  function FormWithError(req: Request, error: string): View {
    View(Echo(req)["errors" := Str(error)], HomeTemplate)
  }

  /** The confirmation page's model: the stored appointment itself. */
  function AppointmentModel(a: Appointment): map<string, Value> {
    map[
      "name" := Str(a.name),
      "treatment" := Str(a.treatment),
      "number" := Str(a.number),
      "appointmentDt" := DateTime(a.appointmentDt),
      "reminderDt" := DateTime(a.reminderDt)]
  }

  /** The SMS text sent at booking time. */
  function ReminderBody(name: string, treatment: string, appointmentDt: int): string {
    name + ", here's a reminder that you have a " + treatment + " scheduled for "
    + Clock.FormatHourMinute(appointmentDt) + ". See you soon!"
  }

  /** Whether the lookup's line type passes the mobile check. */
  predicate IsMobile(check: MobileCheck, lineType: JavaString) {
    match check
    case ByReference => SameReference(lineType, MobileLineType)
    case ByValue => ValueEquals(lineType, MobileLineType)
  }

  /** The `date` and `time` parameters joined as `%sT%s` for
      `LocalDateTime.parse`. */
  function DateTimeText(date: string, time: string): string {
    date + "T" + time
  }

  /** The `POST /book` handler. `parseDateTime` is `LocalDateTime.parse`
      (`None` where it throws). */
  function Book(
    check: MobileCheck,
    req: Request,
    now: int,
    parseDateTime: string -> Option<int>,
    provider: Provider,
    store: seq<Appointment>): (r: Booked)
    // The list is append-only: at most one entry is added, at the end.
    ensures |store| <= |r.store| <= |store| + 1
    ensures r.store[..|store|] == store
    // Calls: at most a lookup, then a send.
    ensures |r.calls| <= 2
    ensures |r.calls| >= 1 ==> r.calls[0].LookupCall?
    ensures |r.calls| == 2 ==> r.calls[1].SendCall? && r.calls[1].originator == Originator
    ensures |r.calls| == 2 ==> |r.calls[1].recipients| == 1
    ensures |r.calls| == 2 ==> r.calls[1].recipients[0] == r.calls[0].phoneNumber
    ensures r.response.Crash? ==> r.calls == [] && r.store == store
    // An appointment is stored exactly when the send went through.
    ensures |r.store| == |store| + 1 <==> |r.calls| == 2 && provider.send == Accepted
    ensures |r.store| == |store| + 1 <==>
      r.response.Render? && r.response.view.template == ConfirmTemplate
    // The confirmation page shows the stored record, which is well timed.
    ensures |r.store| == |store| + 1 ==>
      && WellTimed(r.store[|store|])
      && !TooSoon(r.store[|store|].appointmentDt, now)
      && r.response.view.model == AppointmentModel(r.store[|store|])
    // Every re-rendered form echoes the five parameters and carries an error.
    ensures r.response.Render? && r.response.view.template == HomeTemplate ==>
      && "errors" in r.response.view.model
      && r.response.view.model == Echo(req)["errors" := r.response.view.model["errors"]]
  {
    match CheckFields(Fields(req))
    case NullField => Booked(Crash(NullPointer), store, [])
    case BlankField => Booked(Render(FormWithError(req, MissingFieldsError)), store, [])
    case AllPresent =>
      assert Filled(Fields(req)[0]) && Filled(Fields(req)[1]) && Filled(Fields(req)[2]);
      assert Filled(Fields(req)[3]) && Filled(Fields(req)[4]);
      var name, treatment, number := req.name.value, req.treatment.value, req.number.value;
      match parseDateTime(DateTimeText(req.date.value, req.time.value))
      case None => Booked(Crash(DateTimeParse), store, [])
      case Some(appointmentDt) =>
        if TooSoon(appointmentDt, now) then
          Booked(Render(FormWithError(req, TooSoonError)), store, [])
        else
          match ParseBigInteger(number)
          case None => Booked(Crash(NumberFormat), store, [])
          case Some(phoneNumber) =>
            var lookupCall := LookupCall(phoneNumber, provider.countryCode);
            match provider.lookup
            case LookupFailed(failure) =>
              Booked(Render(FormWithError(req, failure.text)), store, [lookupCall])
            case LineType(lineType) =>
              if !IsMobile(check, lineType) then
                Booked(Render(FormWithError(req, NotMobileError)), store, [lookupCall])
              else
                var body := ReminderBody(name, treatment, appointmentDt);
                var sendCall := SendCall(Originator, body, [phoneNumber]);
                match provider.send
                case SendFailed(failure) =>
                  Booked(Render(FormWithError(req, failure.text)), store, [lookupCall, sendCall])
                case Accepted =>
                  var appointment := Appointment(
                    name, treatment, number, appointmentDt, ReminderTime(appointmentDt));
                  Booked(
                    Render(View(AppointmentModel(appointment), ConfirmTemplate)),
                    store + [appointment],
                    [lookupCall, sendCall])
  }
}

=== FILE: booking_properties.dfy ===
/** What each stage of the `POST /book` handler does to the response, to
    the provider calls and to the appointment list. Every lemma holds for
    both ways of comparing the line type with `"mobile"`. */
module BookingProperties {
  import opened JavaLang
  import Clock
  import opened Booking

  /** The date and time of a request whose parameters are all present,
      as `LocalDateTime.parse` reads them. */
  function ParsedDateTime(req: Request, parseDateTime: string -> Option<int>): Option<int>
    requires AllFilled(req)
  {
    parseDateTime(DateTimeText(req.date.value, req.time.value))
  }

  /** The request gets through the blank-field check, the timing check
      and the number parse, so the handler reaches the lookup. */
  predicate ReachesLookup(req: Request, now: int, parseDateTime: string -> Option<int>) {
    && AllFilled(req)
    && ParsedDateTime(req, parseDateTime).Some?
    && !TooSoon(ParsedDateTime(req, parseDateTime).value, now)
    && IsIntegerLiteral(req.number.value)
  }

  /** The number the handler looks up and messages. */
  function PhoneNumber(req: Request): int
    requires AllFilled(req) && IsIntegerLiteral(req.number.value)
  {
    ParseBigInteger(req.number.value).value
  }

  /** A blank parameter that the `||` chain reaches (every parameter
      before it is filled) sends the form back with the fields echoed, and
      nothing else happens. */
  lemma BlankFieldRejected(
    check: MobileCheck, req: Request, now: int, parseDateTime: string -> Option<int>,
    provider: Provider, store: seq<Appointment>, i: int)
    requires 0 <= i < 5
    requires Fields(req)[i].Some? && IsBlank(Fields(req)[i].value)
    requires FilledBefore(Fields(req), i)
    ensures var r := Book(check, req, now, parseDateTime, provider, store);
      && r.response == Render(FormWithError(req, MissingFieldsError))
      && r.calls == []
      && r.store == store
  {
  }

  /** A missing parameter that the chain reaches makes `isBlank` throw:
      the request fails with nothing called and nothing stored. */
  lemma MissingFieldCrashes(
    check: MobileCheck, req: Request, now: int, parseDateTime: string -> Option<int>,
    provider: Provider, store: seq<Appointment>, i: int)
    requires 0 <= i < 5
    requires Fields(req)[i].None?
    requires FilledBefore(Fields(req), i)
    ensures var r := Book(check, req, now, parseDateTime, provider, store);
      r.response == Crash(NullPointer) && r.calls == [] && r.store == store
  {
  }

  /** A date and time `LocalDateTime.parse` rejects escape the handler
      as an exception. */
  lemma UnparseableDateTimeCrashes(
    check: MobileCheck, req: Request, now: int, parseDateTime: string -> Option<int>,
    provider: Provider, store: seq<Appointment>)
    requires AllFilled(req)
    requires ParsedDateTime(req, parseDateTime).None?
    ensures var r := Book(check, req, now, parseDateTime, provider, store);
      r.response == Crash(DateTimeParse) && r.calls == [] && r.store == store
  {
  }

  /** An appointment strictly before `now + 3h5m` sends the form back
      with the timing error; no provider call, nothing stored. */
  lemma TooSoonRejected(
    check: MobileCheck, req: Request, now: int, parseDateTime: string -> Option<int>,
    provider: Provider, store: seq<Appointment>)
    requires AllFilled(req)
    requires ParsedDateTime(req, parseDateTime).Some?
    requires ParsedDateTime(req, parseDateTime).value < now + 3 * Clock.NanosPerHour + 5 * Clock.NanosPerMinute
    ensures var r := Book(check, req, now, parseDateTime, provider, store);
      && r.response == Render(FormWithError(req, TooSoonError))
      && r.calls == []
      && r.store == store
  {
  }

  /** The window is half-open: an appointment exactly at `now + 3h5m`
      passes the timing check, so the handler goes on to parse the number
      and, if it parses, to the lookup. */
  lemma EarliestInstantAccepted(
    check: MobileCheck, req: Request, now: int, parseDateTime: string -> Option<int>,
    provider: Provider, store: seq<Appointment>)
    requires AllFilled(req)
    requires ParsedDateTime(req, parseDateTime) == Some(now + 3 * Clock.NanosPerHour + 5 * Clock.NanosPerMinute)
    ensures var r := Book(check, req, now, parseDateTime, provider, store);
      if IsIntegerLiteral(req.number.value) then |r.calls| >= 1 else r.response == Crash(NumberFormat)
  {
  }

  /** The number is parsed before the lookup: a number `new BigInteger`
      rejects ends the request with no lookup, no send and no change. */
  lemma UnparseableNumberCrashes(
    check: MobileCheck, req: Request, now: int, parseDateTime: string -> Option<int>,
    provider: Provider, store: seq<Appointment>)
    requires AllFilled(req)
    requires ParsedDateTime(req, parseDateTime).Some?
    requires !TooSoon(ParsedDateTime(req, parseDateTime).value, now)
    requires !IsIntegerLiteral(req.number.value)
    ensures var r := Book(check, req, now, parseDateTime, provider, store);
      r.response == Crash(NumberFormat) && r.calls == [] && r.store == store
  {
  }

  /** The lookup is issued exactly when the request passes the three
      local checks, and it asks about the parsed number in the configured
      country. */
  lemma LookupIssuedIff(
    check: MobileCheck, req: Request, now: int, parseDateTime: string -> Option<int>,
    provider: Provider, store: seq<Appointment>)
    ensures var r := Book(check, req, now, parseDateTime, provider, store);
      && (|r.calls| >= 1 <==> ReachesLookup(req, now, parseDateTime))
      && (|r.calls| >= 1 ==> r.calls[0] == LookupCall(PhoneNumber(req), provider.countryCode))
  {
    AllFilledIsFilledBefore(req);
  }

  /** A lookup that fails with a provider exception sends the form back
      with the exception's text; no message is sent, nothing is stored. */
  lemma LookupFailureReported(
    check: MobileCheck, req: Request, now: int, parseDateTime: string -> Option<int>,
    provider: Provider, store: seq<Appointment>)
    requires ReachesLookup(req, now, parseDateTime)
    requires provider.lookup.LookupFailed?
    ensures var r := Book(check, req, now, parseDateTime, provider, store);
      && r.response == Render(FormWithError(req, provider.lookup.failure.text))
      && r.calls == [LookupCall(PhoneNumber(req), provider.countryCode)]
      && r.store == store
  {
  }

  /** A line type that fails the mobile check sends the form back with
      the not-a-mobile error; no message is sent, nothing is stored. */
  lemma NotMobileRejected(
    check: MobileCheck, req: Request, now: int, parseDateTime: string -> Option<int>,
    provider: Provider, store: seq<Appointment>)
    requires ReachesLookup(req, now, parseDateTime)
    requires provider.lookup.LineType? && !IsMobile(check, provider.lookup.lineType)
    ensures var r := Book(check, req, now, parseDateTime, provider, store);
      && r.response == Render(FormWithError(req, NotMobileError))
      && r.calls == [LookupCall(PhoneNumber(req), provider.countryCode)]
      && r.store == store
  {
  }

  /** The message is sent exactly when the lookup answered with a line
      type that passes the mobile check; it goes from "BeautyBird" to the
      parsed number alone, and carries the reminder text. */
  lemma SendIssuedIff(
    check: MobileCheck, req: Request, now: int, parseDateTime: string -> Option<int>,
    provider: Provider, store: seq<Appointment>)
    ensures var r := Book(check, req, now, parseDateTime, provider, store);
      && (|r.calls| == 2 <==>
            && ReachesLookup(req, now, parseDateTime)
            && provider.lookup.LineType?
            && IsMobile(check, provider.lookup.lineType))
      && (|r.calls| == 2 ==>
            r.calls[1] == SendCall(
              "BeautyBird",
              ReminderBody(req.name.value, req.treatment.value, ParsedDateTime(req, parseDateTime).value),
              [PhoneNumber(req)]))
  {
    AllFilledIsFilledBefore(req);
  }

  /** A send that fails with a provider exception sends the form back
      with the exception's text, and nothing is stored. */
  lemma SendFailureReported(
    check: MobileCheck, req: Request, now: int, parseDateTime: string -> Option<int>,
    provider: Provider, store: seq<Appointment>)
    requires ReachesLookup(req, now, parseDateTime)
    requires provider.lookup.LineType? && IsMobile(check, provider.lookup.lineType)
    requires provider.send.SendFailed?
    ensures var r := Book(check, req, now, parseDateTime, provider, store);
      && r.response == Render(FormWithError(req, provider.send.failure.text))
      && |r.calls| == 2
      && r.store == store
  {
  }

  /** A send that returns without a provider exception commits the appointment: the submitted strings,
      the parsed time, a reminder exactly 3 hours earlier (and so at
      least 5 minutes after `now`), appended after every earlier entry;
      the confirmation page shows that same record. */
  lemma SuccessRecorded(
    check: MobileCheck, req: Request, now: int, parseDateTime: string -> Option<int>,
    provider: Provider, store: seq<Appointment>)
    requires ReachesLookup(req, now, parseDateTime)
    requires provider.lookup.LineType? && IsMobile(check, provider.lookup.lineType)
    requires provider.send == Accepted
    ensures var r := Book(check, req, now, parseDateTime, provider, store);
      var at := ParsedDateTime(req, parseDateTime).value;
      && r.store == store + [Appointment(
           req.name.value, req.treatment.value, req.number.value, at, at - 3 * Clock.NanosPerHour)]
      && r.response == Render(View(AppointmentModel(r.store[|store|]), ConfirmTemplate))
      && r.store[|store|].reminderDt >= now + 5 * Clock.NanosPerMinute
  {
  }

  /** The handler never reads the appointment list: what it answers and
      what it calls are the same whatever the list holds. */
  lemma DecisionIgnoresStore(
    check: MobileCheck, req: Request, now: int, parseDateTime: string -> Option<int>,
    provider: Provider, store1: seq<Appointment>, store2: seq<Appointment>)
    ensures var r1 := Book(check, req, now, parseDateTime, provider, store1);
      var r2 := Book(check, req, now, parseDateTime, provider, store2);
      && r1.response == r2.response
      && r1.calls == r2.calls
      && |r1.store| - |store1| == |r2.store| - |store2|
  {
  }

  /** The sent text names the client first, the treatment after a fixed
      lead-in, and ends with the appointment's `HH:mm` and a fixed
      sign-off, so each part can be read back from it. */
  lemma ReminderBodyLayout(name: string, treatment: string, appointmentDt: int)
    ensures var b := ReminderBody(name, treatment, appointmentDt);
      var lead := |", here's a reminder that you have a "|;
      var k := |b| - |". See you soon!"|;
      && |b| == |name| + lead + |treatment| + |" scheduled for "| + 5 + |". See you soon!"|
      && b[..|name|] == name
      && b[|name| .. |name| + lead] == ", here's a reminder that you have a "
      && b[|name| + lead .. |name| + lead + |treatment|] == treatment
      && b[|name| + lead + |treatment| .. k - 5] == " scheduled for "
      && b[k..] == ". See you soon!"
      && AllDigits(b[k - 5 .. k - 3]) && DigitsValue(b[k - 5 .. k - 3]) == Clock.HourOfDay(appointmentDt)
      && b[k - 3] == ':'
      && AllDigits(b[k - 2 .. k]) && DigitsValue(b[k - 2 .. k]) == Clock.MinuteOfHour(appointmentDt)
  {
    var lead := ", here's a reminder that you have a ";
    var hhmm := Clock.FormatHourMinute(appointmentDt);
    var b := ReminderBody(name, treatment, appointmentDt);
    var k := |b| - |". See you soon!"|;
    assert b == name + lead + treatment + " scheduled for " + hhmm + ". See you soon!";
    assert b[|name| .. |name| + |lead|] == lead;
    assert b[|name| + |lead| + |treatment| .. k - 5] == " scheduled for ";
    assert b[k - 5 .. k] == hhmm;
    assert b[k - 5 .. k - 3] == hhmm[..2];
    assert b[k - 2 .. k] == hhmm[3..];
  }
}

=== FILE: clock.dfy ===
/** `LocalDateTime` reduced to what the handlers use: a point on the local
    time line, counted in nanoseconds from 1970-01-01T00:00 (the type's own
    resolution, so `isBefore` compares exactly), its fixed-length hours
    and minutes, and the `HH:mm` / `HH:mm:ss` patterns of
    `DateTimeFormatter`. A local date-time has no time zone, so every day
    is exactly 24 hours long. */
module Clock {
  import opened JavaLang

  const NanosPerSecond: int := 1_000_000_000
  const NanosPerMinute: int := 60 * NanosPerSecond
  const NanosPerHour: int := 60 * NanosPerMinute

  /** `plusHours(h).plusMinutes(m)` (and `minusHours` with a negative h). */
  function Shift(t: int, hours: int, minutes: int): int {
    t + hours * NanosPerHour + minutes * NanosPerMinute
  }

  /** Whole seconds since the epoch, rounded toward the past (so that
      instants before 1970 fall into the right second). */
  function EpochSecond(t: int): int {
    t / NanosPerSecond
  }

  function SecondOfMinute(t: int): (s: int)
    ensures 0 <= s < 60
  {
    EpochSecond(t) % 60
  }

  function MinuteOfHour(t: int): (m: int)
    ensures 0 <= m < 60
  {
    EpochSecond(t) / 60 % 60
  }

  function HourOfDay(t: int): (h: int)
    ensures 0 <= h < 24
  {
    EpochSecond(t) / 60 / 60 % 24
  }

  /** `toLocalDate()`, as a day count from 1970-01-01. */
  function EpochDay(t: int): int {
    EpochSecond(t) / 60 / 60 / 24
  }

  /** The instant a date and a second-resolution time of day denote. */
  function AtTimeOfDay(day: int, hour: int, minute: int, second: int): int {
    (((day * 24 + hour) * 60 + minute) * 60 + second) * NanosPerSecond
  }

  /** A date plus `HH:mm:ss` recovers the instant up to its fraction of
      a second: nothing is lost but the nanoseconds. */
  lemma DateAndClockRecoverInstant(t: int)
    ensures AtTimeOfDay(EpochDay(t), HourOfDay(t), MinuteOfHour(t), SecondOfMinute(t))
            == t - t % NanosPerSecond
    ensures 0 <= t % NanosPerSecond < NanosPerSecond
  {
  }

  /** Two decimal digits, zero-padded, as the `HH`, `mm` and `ss` fields
      print. */
  function TwoDigits(n: int): (s: string)
    requires 0 <= n < 100
    ensures |s| == 2 && AllDigits(s)
    ensures DigitsValue(s) == n
  {
    var s := [DigitChar(n / 10), DigitChar(n % 10)];
    assert s[..1][..0] == [];
    assert DigitsValue(s[..1]) == n / 10;
    assert DigitsValue(s) == DigitsValue(s[..1]) * 10 + n % 10;
    s
  }

  /** The `HH:mm` pattern. */
  function FormatHourMinute(t: int): (s: string)
    ensures |s| == 5 && s[2] == ':'
    ensures AllDigits(s[..2]) && DigitsValue(s[..2]) == HourOfDay(t)
    ensures AllDigits(s[3..]) && DigitsValue(s[3..]) == MinuteOfHour(t)
  {
    var hh := TwoDigits(HourOfDay(t));
    var mm := TwoDigits(MinuteOfHour(t));
    assert (hh + ":" + mm)[..2] == hh && (hh + ":" + mm)[3..] == mm;
    hh + ":" + mm
  }

  /** The `HH:mm:ss` pattern. */
  function FormatHourMinuteSecond(t: int): (s: string)
    ensures |s| == 8 && s[2] == ':' && s[5] == ':'
    ensures AllDigits(s[..2]) && DigitsValue(s[..2]) == HourOfDay(t)
    ensures AllDigits(s[3..5]) && DigitsValue(s[3..5]) == MinuteOfHour(t)
    ensures AllDigits(s[6..]) && DigitsValue(s[6..]) == SecondOfMinute(t)
  {
    var hhmm := FormatHourMinute(t);
    var ss := TwoDigits(SecondOfMinute(t));
    var s := hhmm + ":" + ss;
    assert s[..2] == hhmm[..2] && s[3..5] == hhmm[3..] && s[6..] == ss;
    s
  }
}

=== FILE: home_form.dfy ===
/** The `GET /` handler: the booking form, pre-filled with a suggested
    appointment 3 hours 10 minutes from now, shown as a date and an
    `HH:mm:ss` time of day. */
module HomeForm {
  import opened JavaLang
  import Clock
  import opened Booking

  /** `now.plusHours(3).plusMinutes(10)`. */
  function SuggestedTime(now: int): int {
    Clock.Shift(now, 3, 10)
  }

  /** The form's model: the suggestion's date and its time of day. */
  function ShowForm(now: int): (v: View)
    ensures v.template == HomeTemplate
    ensures ShowsDateAndTime(v)
  {
    var suggested := SuggestedTime(now);
    View(
      map[
        "date" := Date(Clock.EpochDay(suggested)),
        "time" := Str(Clock.FormatHourMinuteSecond(suggested))],
      HomeTemplate)
  }

  /** The form shows a date and a time of day spelled `HH:mm:ss`. */
  predicate ShowsDateAndTime(v: View) {
    && "date" in v.model && v.model["date"].Date?
    && "time" in v.model && v.model["time"].Str?
    && var time := v.model["time"].s;
       && |time| == 8 && time[2] == ':' && time[5] == ':'
       && AllDigits(time[..2]) && AllDigits(time[3..5]) && AllDigits(time[6..])
  }

  /** The instant the form's date and time fields denote, read back from
      what the form shows. */
  function ShownInstant(v: View): int
    requires ShowsDateAndTime(v)
  {
    var time := v.model["time"].s;
    Clock.AtTimeOfDay(
      v.model["date"].epochDay,
      DigitsValue(time[..2]),
      DigitsValue(time[3..5]),
      DigitsValue(time[6..]))
  }

  /** Submitted unchanged, the suggestion passes the booking handler's
      timing check, both at the `now` it was made and for up to five
      minutes less one second afterwards: the form loses at most the
      fraction of a second, and the suggestion sits five minutes past the
      3h5m limit. */
  lemma SuggestionPassesTimingCheck(now: int, later: int)
    requires later <= now + 5 * Clock.NanosPerMinute - Clock.NanosPerSecond
    ensures var v := ShowForm(now);
      ShownInstant(v) == SuggestedTime(now) - SuggestedTime(now) % Clock.NanosPerSecond
      && !TooSoon(ShownInstant(v), later)
  {
  }
}

=== FILE: java_lang.dfy ===
/** The small part of the Java platform the booking handler leans on:
    `null`-able values, `String.isBlank`, reference identity of strings
    and the decimal `BigInteger(String)` constructor with its inverse
    `BigInteger.toString()`. */
module JavaLang {

  /** A value that may be absent: a Java reference that is `null`, or, as
      the result of a parse, the exception the parse throws instead of
      returning. */
  datatype Option<+T> = None | Some(value: T)

  /** `Character.isWhitespace`: the Unicode space, line and paragraph
      separators except the three non-breaking spaces (U+00A0, U+2007,
      U+202F), plus the ASCII controls U+0009..U+000D and U+001C..U+001F. */
  predicate IsWhitespace(c: char) {
    var n := c as int;
    || (0x09 <= n <= 0x0D)
    || (0x1C <= n <= 0x20)
    || n == 0x1680
    || (0x2000 <= n <= 0x2006)
    || (0x2008 <= n <= 0x200A)
    || n == 0x2028
    || n == 0x2029
    || n == 0x205F
    || n == 0x3000
  }

  /** `String.isBlank`: empty, or whitespace code points only. */
  predicate IsBlank(s: string) {
    forall i :: 0 <= i < |s| ==> IsWhitespace(s[i])
  }

  /** `String.indexOfNonWhitespace`, the scan `isBlank` is built on:
      the first position that holds a non-whitespace character, or the
      length when there is none. The model itself uses the `IsBlank`
      predicate; this method is here only to tie that predicate to the way
      `isBlank` is implemented. */
  method IndexOfNonWhitespace(s: string) returns (i: nat)
    ensures i <= |s|
    ensures forall j :: 0 <= j < i ==> IsWhitespace(s[j])
    ensures i < |s| ==> !IsWhitespace(s[i])
    ensures i == |s| <==> IsBlank(s)
  {
    i := 0;
    while i < |s| && IsWhitespace(s[i])
      invariant i <= |s|
      invariant forall j :: 0 <= j < i ==> IsWhitespace(s[j])
    {
      i := i + 1;
    }
  }

  /** A `java.lang.String` object: its characters, and whether it is the
      canonical (interned) instance for those characters. String literals
      are always the interned instance; strings built at run time, such as
      those a JSON reader produces, are fresh objects. */
  datatype JavaString = JavaString(chars: string, interned: bool)

  /** `a == lit` / `a != lit` on references, where `lit` is a string
      literal: identity holds only for the interned instance. */
  predicate SameReference(a: JavaString, lit: string) {
    a.interned && a.chars == lit
  }

  /** `a.equals(lit)`: value equality. */
  predicate ValueEquals(a: JavaString, lit: string) {
    a.chars == lit
  }

  predicate IsDigit(c: char) {
    '0' <= c <= '9'
  }

  predicate IsSign(c: char) {
    c == '-' || c == '+'
  }

  predicate AllDigits(s: string) {
    forall i :: 0 <= i < |s| ==> IsDigit(s[i])
  }

  function DigitValue(c: char): (d: nat)
    requires IsDigit(c)
    ensures d < 10
  {
    c as int - '0' as int
  }

  function DigitChar(d: nat): (c: char)
    requires d < 10
    ensures IsDigit(c) && DigitValue(c) == d
  {
    ('0' as int + d) as char
  }

  /** The value of a string of decimal digits, most significant first. */
  function DigitsValue(ds: string): nat
    requires AllDigits(ds)
    decreases |ds|
  {
    if |ds| == 0 then 0
    else DigitsValue(ds[..|ds| - 1]) * 10 + DigitValue(ds[|ds| - 1])
  }

  /** The shortest decimal spelling of a natural number. */
  function Digits(n: nat): (ds: string)
    ensures |ds| > 0 && AllDigits(ds)
    ensures n > 0 ==> ds[0] != '0'
    decreases n
  {
    if n < 10 then [DigitChar(n)] else Digits(n / 10) + [DigitChar(n % 10)]
  }

  /** What `new BigInteger(s)` accepts: at most one sign, and only as the
      first character, followed by at least one decimal digit. */
  predicate IsIntegerLiteral(s: string) {
    && |s| > 0
    && (IsDigit(s[0]) || (IsSign(s[0]) && |s| > 1))
    && forall i :: 0 < i < |s| ==> IsDigit(s[i])
  }

  /** `new BigInteger(s)` (radix 10). `None` stands for the
      `NumberFormatException` it throws: on the empty string, a lone sign,
      a sign anywhere but first, or any non-digit. */
  function ParseBigInteger(s: string): (r: Option<int>)
    ensures r.Some? <==> IsIntegerLiteral(s)
    ensures r.Some? && s[0] == '-' ==> r.value <= 0
    ensures r.Some? && s[0] != '-' ==> r.value >= 0
  {
    if |s| == 0 then None
    else if IsSign(s[0]) then
      var magnitude := s[1..];
      if |magnitude| > 0 && AllDigits(magnitude) then
        var v: int := if s[0] == '-' then -(DigitsValue(magnitude) as int) else DigitsValue(magnitude);
        Some(v)
      else None
    else if AllDigits(s) then Some(DigitsValue(s))
    else None
  }

  /** `BigInteger.toString()`: a minus sign for negatives, then the
      shortest decimal spelling of the magnitude. */
  function BigIntegerToString(n: int): (s: string)
    ensures IsIntegerLiteral(s)
    ensures (s[0] == '-') <==> n < 0
  {
    if n < 0 then "-" + Digits(-n) else Digits(n)
  }

  lemma {:induction false} DigitsValueOfDigits(n: nat)
    ensures DigitsValue(Digits(n)) == n
    decreases n
  {
    if n >= 10 {
      var ds := Digits(n);
      assert ds[..|ds| - 1] == Digits(n / 10);
      DigitsValueOfDigits(n / 10);
    }
  }

  /** `k` zero digits. */
  function Zeros(k: nat): (z: string)
    ensures |z| == k && AllDigits(z)
  {
    seq(k, _ => '0')
  }

  lemma {:induction false} LeadingZeroAddsNothing(ds: string)
    requires AllDigits(ds)
    ensures AllDigits("0" + ds) && DigitsValue("0" + ds) == DigitsValue(ds)
    decreases |ds|
  {
    if |ds| > 0 {
      var zs := "0" + ds;
      assert zs[..|zs| - 1] == "0" + ds[..|ds| - 1];
      assert zs[|zs| - 1] == ds[|ds| - 1];
      LeadingZeroAddsNothing(ds[..|ds| - 1]);
    } else {
      assert ("0" + ds)[..0] == [];
    }
  }

  lemma {:induction false} LeadingZerosAddNothing(k: nat, ds: string)
    requires AllDigits(ds)
    ensures AllDigits(Zeros(k) + ds) && DigitsValue(Zeros(k) + ds) == DigitsValue(ds)
    decreases k
  {
    if k > 0 {
      assert Zeros(k) + ds == "0" + (Zeros(k - 1) + ds);
      LeadingZerosAddNothing(k - 1, ds);
      LeadingZeroAddsNothing(Zeros(k - 1) + ds);
    } else {
      assert Zeros(k) + ds == ds;
    }
  }

  /** A run of digits with no sign. */
  lemma ParseUnsignedRun(u: string)
    requires |u| > 0 && AllDigits(u)
    ensures ParseBigInteger(u) == Some(DigitsValue(u))
  {
    assert !IsSign(u[0]);
  }

  /** A sign followed by a run of digits. */
  lemma ParseSignedRun(sign: char, u: string)
    requires IsSign(sign) && |u| > 0 && AllDigits(u)
    ensures ParseBigInteger([sign] + u)
            == Some(if sign == '-' then -(DigitsValue(u) as int) else DigitsValue(u))
  {
    var s := [sign] + u;
    assert |s| != 0 && IsSign(s[0]) && s[0] == sign;
    assert s[1..] == u;
  }

  /** The value `new BigInteger` gives a spelling made of an optional
      sign, some zeros, and the shortest spelling of a natural number `n`:
      it denotes `n`, or `-n` after a minus sign. So a national number
      such as "0612345678" is looked up as 612345678. */
  lemma ParsePaddedSpelling(k: nat, n: nat)
    ensures ParseBigInteger(Zeros(k) + Digits(n)) == Some(n)
    ensures ParseBigInteger("+" + (Zeros(k) + Digits(n))) == Some(n)
    ensures ParseBigInteger("-" + (Zeros(k) + Digits(n))) == Some(-(n as int))
  {
    var u := Zeros(k) + Digits(n);
    LeadingZerosAddNothing(k, Digits(n));
    DigitsValueOfDigits(n);
    assert DigitsValue(u) == n;
    ParseUnsignedRun(u);
    ParseSignedRun('+', u);
    ParseSignedRun('-', u);
  }

  /** A spelling that starts with a non-zero digit has a positive value. */
  lemma {:induction false} LeadingNonZeroIsPositive(v: string)
    requires |v| > 0 && AllDigits(v) && v[0] != '0'
    ensures DigitsValue(v) > 0
    decreases |v|
  {
    if |v| > 1 {
      var init := v[..|v| - 1];
      assert init[0] == v[0];
      LeadingNonZeroIsPositive(init);
    }
  }

  /** A spelling without leading zeros (other than a lone "0") is the
      shortest spelling of its own value. */
  lemma {:induction false} CanonicalSpelling(v: string)
    requires |v| > 0 && AllDigits(v) && (v[0] != '0' || |v| == 1)
    ensures Digits(DigitsValue(v)) == v
    decreases |v|
  {
    if |v| == 1 {
      assert v[..0] == [];
      assert DigitChar(DigitValue(v[0])) == v[0];
    } else {
      var init := v[..|v| - 1];
      assert init[0] == v[0];
      LeadingNonZeroIsPositive(init);
      CanonicalSpelling(init);
      assert DigitChar(DigitValue(v[|v| - 1])) == v[|v| - 1];
      assert v == init + [v[|v| - 1]];
    }
  }

  /** Every run of digits is some zeros followed by the shortest spelling
      of its value. */
  lemma {:induction false} PaddedDigits(u: string)
    requires |u| > 0 && AllDigits(u)
    ensures exists k: nat :: u == Zeros(k) + Digits(DigitsValue(u))
    decreases |u|
  {
    if |u| > 1 && u[0] == '0' {
      var rest := u[1..];
      assert u == "0" + rest;
      LeadingZeroAddsNothing(rest);
      PaddedDigits(rest);
      var k: nat :| rest == Zeros(k) + Digits(DigitsValue(rest));
      assert u == Zeros(k + 1) + Digits(DigitsValue(u));
    } else {
      CanonicalSpelling(u);
      assert u == Zeros(0) + Digits(DigitsValue(u));
    }
  }

  /** `s` is `k` zeros and the shortest spelling of `n`, with no sign, a
      '+' or a '-' in front. */
  predicate PaddedSpelling(s: string, k: nat, n: nat) {
    || s == Zeros(k) + Digits(n)
    || s == "+" + (Zeros(k) + Digits(n))
    || s == "-" + (Zeros(k) + Digits(n))
  }

  /** Every string `new BigInteger` accepts has one of the shapes of
      `ParsePaddedSpelling`, so that lemma gives the value of every
      accepted string. */
  lemma EveryLiteralIsPadded(s: string)
    requires IsIntegerLiteral(s)
    ensures exists k: nat, n: nat :: PaddedSpelling(s, k, n)
  {
    if IsSign(s[0]) {
      var u := s[1..];
      assert AllDigits(u) by {
        forall i | 0 <= i < |u| ensures IsDigit(u[i]) { assert u[i] == s[i + 1]; }
      }
      PaddedDigits(u);
      var k: nat :| u == Zeros(k) + Digits(DigitsValue(u));
      assert s == [s[0]] + u;
      assert PaddedSpelling(s, k, DigitsValue(u));
    } else {
      PaddedDigits(s);
      var k: nat :| s == Zeros(k) + Digits(DigitsValue(s));
      assert PaddedSpelling(s, k, DigitsValue(s));
    }
  }

  /** Every integer survives `toString` followed by `new BigInteger`. */
  lemma ParseOfToString(n: int)
    ensures ParseBigInteger(BigIntegerToString(n)) == Some(n)
  {
    var s := BigIntegerToString(n);
    if n < 0 {
      DigitsValueOfDigits(-n);
      assert s[0] == '-' && s[1..] == Digits(-n);
    } else {
      DigitsValueOfDigits(n);
      assert s == Digits(n) && !IsSign(s[0]);
    }
  }
}

=== FILE: mobile_check.dfy ===
/** The mobile check of `POST /book` compares the line type returned by
    the lookup with the literal `"mobile"` using `!=`, which on Java
    strings is reference identity. The provider client is not part of
    this model. The lemmas below take as their premise that it
    deserialises the line type into a new `String`, as a JSON reader
    does, and so not into the interned literal. Under that premise the
    check as written turns away every mobile number. The evidently
    intended comparison is by value (`equals`). */
module MobileCheckFinding {
  import opened JavaLang
  import opened Booking
  import opened BookingProperties

  /** The line type of a mobile number as the lookup hands it over,
      under the premise above. */
  const ReportedMobile := JavaString(MobileLineType, false)

  /** As written: a request that passes every local check, for a number
      the provider reports as mobile and with a provider that would
      accept the message, still gets the not-a-mobile error, and no
      message is sent. */
  lemma ReferenceCheckRejectsReportedMobile(
    req: Request, now: int, parseDateTime: string -> Option<int>,
    countryCode: string, store: seq<Appointment>)
    requires ReachesLookup(req, now, parseDateTime)
    ensures var provider := Provider(countryCode, LineType(ReportedMobile), Accepted);
      var r := Book(ByReference, req, now, parseDateTime, provider, store);
      && r.response == Render(FormWithError(req, NotMobileError))
      && |r.calls| == 1
      && r.store == store
  {
  }

  /** As written, a message goes out only for the interned literal,
      which the lookup never returns. */
  lemma ReferenceCheckNeedsInternedString(
    req: Request, now: int, parseDateTime: string -> Option<int>,
    provider: Provider, store: seq<Appointment>)
    requires ReachesLookup(req, now, parseDateTime)
    requires provider.lookup.LineType?
    ensures var r := Book(ByReference, req, now, parseDateTime, provider, store);
      |r.calls| == 2 <==>
        provider.lookup.lineType.chars == MobileLineType && provider.lookup.lineType.interned
  {
  }

  /** Corrected: comparing by value, the message is sent exactly when
      the lookup reports the line type "mobile", whatever object carries
      it; with a provider that accepts the message the appointment is then stored. */
  lemma ValueCheckMessagesMobileLines(
    req: Request, now: int, parseDateTime: string -> Option<int>,
    provider: Provider, store: seq<Appointment>)
    requires ReachesLookup(req, now, parseDateTime)
    requires provider.lookup.LineType?
    ensures var r := Book(ByValue, req, now, parseDateTime, provider, store);
      && (|r.calls| == 2 <==> provider.lookup.lineType.chars == MobileLineType)
      && ((provider.lookup.lineType.chars == MobileLineType && provider.send == Accepted)
          ==> |r.store| == |store| + 1)
  {
  }
}
